=== FILE: README.md ===
# Smart clock: countdown timer and stopwatch, in Dafny

A model of the timing core of the "smart clock" page (`script.js`): the
countdown timer (`startTimer` with its one-second tick, `pauseTimer`,
`resetTimer`), the stopwatch (`startStopwatch` with its 10 ms tick,
`pauseStopwatch`, `resetStopwatch`), the two display formatters
(`formatTime`, `formatStopwatchTime`), the timer/stopwatch part of the
startup recovery in `loadSettings`, and the colour parser `hexToRgb`.

Everything is a pure function over immutable state:

- `digits.dfy` (`Digits`): digit characters, positional values, decimal rendering.
- `jsnumber.dfy` (`JsNumber`): the JavaScript number behaviour the code relies on, for integers:
  truncating `%` (`Rem`), `toString`, `padStart(2, '0')`, `parseInt` without a radix
  (white space, sign, `0x` prefix, longest digit prefix, NaN), and `parseInt(x) || d`.
- `format.dfy` (`Format`): `formatTime` and `formatStopwatchTime`, plus readers that take a
  display string apart again, used to state what the formats preserve.
- `hexcolor.dfy` (`HexColor`): `hexToRgb` and its inverse for `#rrggbb`.
- `storage.dfy` (`Storage`): `localStorage` as a `map<string, string>` under the `smartClock_`
  prefix; numbers are written as their `toString` and read back through `parseInt`.
  A missing key reads as `parseInt(null)`, i.e. NaN.
- `countdown.dfy` (`Countdown`): the timer state (`totalTime`, whether the interval exists,
  the display, the three input strings) and its operations. The display is
  `Formatted(n)` (text `formatTime(n)`) or `TimeUp` (text `"TIME UP!"`); `TextIsTimeUp`
  proves that the code's text comparison with `"TIME UP!"` is the same as testing for `TimeUp`.
- `stopwatch.dfy` (`Stopwatch`): elapsed milliseconds, the interval flag, the anchor
  (`stopwatchStartTime`) and the value on display; every start and tick takes the clock reading `now`.
- `widget.dfy` (`Widget`): both components over one store, startup (`Load`), an event
  type for button presses, interval firings and edits of the timer's three inputs, runs of events, recovery after a reload, and
  independence of the two components.

An interval is a `running` flag; each firing is an explicit `Tick`. A tick of a component
without an interval changes nothing, since no interval exists to fire.

## Behaviour of the code worth knowing

These are properties of the code as written, which the model follows and proves:

- `resetTimer` sets the in-memory `totalTime` to 0 while it displays `"00:05:00"` and persists 300
  (`Countdown.Reset`). The next start therefore re-derives the duration from the inputs, 0 h 5 min 0 s
  (`Countdown.StartAfterReset`). After a reload, the stored 300 is loaded instead (`Widget.RecoverResetTimer`).
- `formatTime` does not cap the hour field at two digits: `padStart` pads and never truncates
  (`Format.HoursNotCapped`: 360000 s shows `"100:00:00"`).
- Because of `|| 300`, a stored 0 loads as 300. So a reload after expiry shows `00:05:00`, not the
  expiry text (`Widget.RecoverTickedTimer`). Loading never resumes an interval (`Widget.Load`).
- A refused start keeps the duration it re-derived. With negative inputs this makes `totalTime`
  negative. If the display does not show the expiry text, every later start is then refused,
  whatever the inputs say, until a reset (`Countdown.NegativeTotalBlocksStart`). A refused start
  does not redraw the display, so after a refusal from the expiry text the next start still
  re-derives the duration from the inputs. A re-deriving start with all-zero or unparseable inputs
  sets `totalTime` to 0, whatever it held before (`Countdown.ZeroDurationRejected`).
- The expiring tick does not force `totalTime` to 0. It never needs to: a running timer always
  has at least one second left (`Countdown.Valid`, kept by every event: `Widget.RunKeepsTimerValid`).
- The stopwatch persists the elapsed time of its last tick. A pause does not read the clock, so
  the time between the last tick and the pause is not counted (`Stopwatch.TwentyFiveMillisecondScenario`).
- After a restart from the expiry state, the display keeps showing `"TIME UP!"` until the first
  tick: `startTimer` does not redraw it (`Countdown.Start` leaves the display unchanged).

## Model

| member | source | states |
|---|---|---|
| Digits.DigitValue | script.js:141-143 | a digit of `[a-f\d]` (either case) has a value below 16, and below 10 exactly for `0`-`9` |
| Digits.NatToDecimal | script.js:220 | the decimal rendering of `n` is a nonempty digit string whose value is `n`, with no leading zero, one digit iff `n < 10`, at most two iff `n < 100` |
| Digits.LeadingZero | script.js:220 | a `0` put in front of a digit string does not change its value, so zero-padding keeps the number |
| JsNumber.Rem | script.js:218-219 | JavaScript `%` by a positive divisor: strictly between `-b` and `b`, equal to the Euclidean remainder for `a >= 0`, never positive for `a <= 0` |
| JsNumber.RemNegate | script.js:218-219 | the remainder takes the sign of the dividend: `(-a) % b` is `-(a % b)`, which with the `a >= 0` case fixes `%` for negative values |
| JsNumber.ToString | script.js:220 | `toString` of an integer is nonempty, made of digits and `-`, starts with `-` exactly when the number is negative, and has no leading zero except in `"0"` itself |
| JsNumber.PadStart2 | script.js:220 | `padStart(2, '0')` gives length `max(2, len)`, keeps the original string as its suffix and adds only `0`s in front |
| JsNumber.TrimStart | script.js:227-229 | `parseInt` drops exactly the leading white-space run: the rest is a suffix that does not start with white space |
| JsNumber.DigitPrefix | script.js:227-229 | `parseInt` reads the longest prefix of digits of the radix: it is a prefix, all digits, and the next character is not a digit |
| JsNumber.ParseUnsigned | script.js:227-229 | an unsigned numeral read by `parseInt` is never negative |
| JsNumber.ParseInt | script.js:54 | `parseInt` without a radix; no contract of its own. What it promises is stated by `JsNumber.ParseIntOfToString` (every integer's string reads back as itself), `JsNumber.ParseIntOfNull`, `JsNumber.ParseIntReadsPrefix` and `JsNumber.ParseIntHexPrefix` |
| JsNumber.ParseSigned | script.js:227-229 | the optional sign after the white space; no contract of its own. `JsNumber.ParseIntOfToString` fixes the `-` case on every negative integer and `JsNumber.ParseIntHexPrefix` the `+` case |
| JsNumber.OrDefault | script.js:54 | `parseInt(x) \|\| d` is the parsed value when it is a non-zero number and `d` when it is NaN or 0 |
| JsNumber.ParseIntOfToString | script.js:54 | an integer written by `setItem` as its string is read back by `parseInt` as the same integer |
| JsNumber.OrDefaultOfToString | script.js:54 | `parseInt(String(n)) \|\| d` is `n`, except that 0 becomes `d` |
| JsNumber.ParseIntOfNull | script.js:54 | a missing key (`getItem` gives `null`) parses to NaN |
| JsNumber.ParseIntReadsPrefix | script.js:227-229 | `parseInt` skips leading white space and stops at the first non-digit (`" 42px"` gives 42) |
| JsNumber.ParseIntHexPrefix | script.js:227-229 | without a radix, `parseInt` reads `0x` numerals in base 16, and `"0x"` alone is NaN |
| Format.Field | script.js:220 | one field, `v.toString().padStart(2, '0')`, is at least two characters; for a non-negative value it is exactly that value's zero-padded digits (`Format.FieldOfNat`) |
| Format.FormatTime | script.js:216-221 | `formatTime`; no contract of its own. `Format.ReadTimeOfFormat` reads back from it, for every `n >= 0`, hours, minutes below 60 and seconds below 60 summing to `n`; `Format.FormatsAreClockText` limits its characters for every integer |
| Format.FormatStopwatchTime | script.js:267-275 | `formatStopwatchTime`; no contract of its own. `Format.ReadStopwatchOfFormat` reads back from it, for every `ms >= 0`, fields summing to `ms` rounded down to 10 ms; `Format.FormatsAreClockText` limits its characters |
| Format.FieldOfNat | script.js:220 | a field of a non-negative value is a zero-padded digit string of that value, exactly two long iff the value is below 100 |
| Format.HmsArithmetic | script.js:217-219 | minutes and seconds of `n` seconds are below 60 and `h*3600 + m*60 + s == n` |
| Format.HmscArithmetic | script.js:268-271 | stopwatch minutes and seconds are below 60, centiseconds below 100, and the fields add up to `ms - ms % 10` |
| Format.ReadTimeOfFormat | script.js:216-221 | `formatTime(n)` for `n >= 0` reads back as hours `n/3600`, minutes `(n%3600)/60 < 60`, seconds `n%60 < 60`, each at least two digits, summing to exactly `n` |
| Format.ReadStopwatchOfFormat | script.js:267-275 | `formatStopwatchTime(ms)` for `ms >= 0` reads back as its four fields, with minutes and seconds below 60 and centiseconds below 100, summing to `ms` rounded down to 10 ms |
| Format.FormatsAreClockText | script.js:216-221 | both formats, for any integer, produce only digits, `-` and `:` |
| Format.HoursNotCapped | script.js:217-220 | 100 hours shows as `"100:00:00"`: the hour field is not truncated to two digits |
| Format.TimerResetLiteral | script.js:259 | the `"00:05:00"` written by `resetTimer` is `formatTime(300)` |
| Format.StopwatchResetLiteral | script.js:296 | the `"00:00:00:00"` written by `resetStopwatch` is `formatStopwatchTime(0)` |
| Format.FortyTwoSeconds | script.js:216-221 | 42 seconds show as `"00:00:42"` |
| HexColor.Matches | script.js:141 | the anchored case-insensitive regular expression; no contract of its own. `HexColor.HexToRgb` states what a match and a non-match give, and `HexColor.HexToRgbOfToHex` that every `#rrggbb` of an in-range colour matches |
| HexColor.HexToRgb | script.js:140-145 | components are in 0..255; on a match of optional `#` plus six hex digits each is `16*hi + lo` of its digit pair; anything else gives black |
| HexColor.HexToRgbOfToHex | script.js:140-145 | every colour written as `#rrggbb` is read back exactly |
| HexColor.HexToRgbIgnoresCase | script.js:141 | a string and its lower-case form give the same colour |
| Storage.Read | script.js:61 | `parseInt(localStorage.getItem(key))`: a missing key reads as NaN; a key written from a number reads back as it (`Storage.ReadHolds`) |
| Storage.Put | script.js:237 | `localStorage.setItem(key, n)`, as at script.js lines 242, 250, 260, 283, 290 and 297: the key then holds the string of `n` and no other key changes |
| Storage.ReadHolds | script.js:54 | a record written from a number reads back through `parseInt` as that number |
| Storage.ReadMissing | script.js:54 | a key never written reads as NaN |
| Countdown.Start | script.js:223-232 | with an interval, nothing changes; otherwise the duration comes from the inputs exactly when `totalTime` is 0 or the display shows expiry, the alert is raised exactly when that duration is not positive, the interval starts exactly when no alert is raised, and display and inputs are untouched |
| Countdown.Tick | script.js:234-244 | a firing decrements by exactly 1; the interval survives exactly while the value is positive, showing and persisting it; otherwise the display shows expiry and 0 is persisted; no other record changes; a running timer never goes below 0 |
| Countdown.Pause | script.js:247-251 | clears the interval, persists `totalTime`, and changes nothing else |
| Countdown.Reset | script.js:253-261 | not running, in-memory `totalTime` 0, inputs `"0"`/`"5"`/`"0"`, display text `"00:05:00"`, persisted 300, no other record changes |
| Countdown.CountsDownToExpiry | script.js:234-244 | from `N` seconds left, each of the first `k < N` ticks leaves it running and showing and persisting `N - k`; the `N`th tick stops it at 0 with the expiry text and 0 persisted |
| Countdown.IdleTicks | script.js:238-240 | a timer whose interval is cleared ignores any number of firings |
| Countdown.ExpiredStaysPut | script.js:234-244 | a countdown that has expired after its `N`th tick stays exactly as expiry left it, in memory and in the store, however many more firings come |
| Countdown.TextIsTimeUp | script.js:226 | the display text equals `"TIME UP!"` exactly when the display shows expiry: no formatted time can be mistaken for it |
| Countdown.PauseIdempotent | script.js:247-251 | pausing twice gives the same state and store as pausing once |
| Countdown.InputDuration | script.js:227-230 | the duration typed into the inputs; no contract of its own. `Countdown.InputDurationOfNumbers` states that numeric inputs give `h*3600 + m*60 + s` |
| Countdown.InputDurationOfNumbers | script.js:227-230 | inputs holding the strings of `h`, `m`, `s` give the duration `h*3600 + m*60 + s` |
| Countdown.StartAfterReset | script.js:226-231 | after a reset, the next start re-derives 300 seconds from the inputs and runs |
| Countdown.StartAfterExpiry | script.js:226-231 | after expiry, the next start takes its duration from the inputs, which the countdown did not touch |
| Countdown.ZeroDurationRejected | script.js:225-233 | a start from 0 or from the expiry text takes the input duration, and raises the alert with no interval exactly when that duration is not positive |
| Countdown.NegativeTotalBlocksStart | script.js:226-232 | with a negative `totalTime` and no expiry text, every start is refused whatever the inputs hold |
| Countdown.ThreeSecondScenario | script.js:223-244 | inputs 0 h 0 min 3 s from 0: the start runs, and after 3 ticks the display shows expiry and 0 is persisted |
| Stopwatch.Start | script.js:277-279 | with an interval, nothing changes; otherwise it runs with the anchor at `now - elapsed`, keeping elapsed and display |
| Stopwatch.Tick | script.js:280-284 | a firing at `now` sets elapsed and the display to `now - anchor` and persists it; no other record changes |
| Stopwatch.Pause | script.js:287-291 | clears the interval, persists elapsed, and changes nothing else |
| Stopwatch.Reset | script.js:293-298 | not running, elapsed and shown time 0, anchor untouched, display text `"00:00:00:00"`, persisted 0, no other record changes |
| Stopwatch.PauseIdempotent | script.js:287-291 | pausing twice gives the same state and store as pausing once |
| Stopwatch.ElapsedFromAnchor | script.js:279-283 | after any number of ticks while running, elapsed is the last tick's clock reading minus the anchor, on display and in the store |
| Stopwatch.ElapsedNeverDecreases | script.js:280-281 | while running, with clock readings that never go backwards, elapsed never decreases from tick to tick |
| Stopwatch.RunAddsInterval | script.js:278-281 | a start at `t0` followed by ticks up to `t1` adds exactly `t1 - t0` to elapsed, leaves it running and persists the new elapsed time |
| Stopwatch.PauseResumeKeepsElapsed | script.js:277-291 | a run from `t0` to `t1`, a pause, and a run from `t2` to `t3` leave `elapsed + (t1-t0) + (t3-t2)` in memory and in the store |
| Stopwatch.TwentyFiveMillisecondScenario | script.js:277-291 | ticks at +10 and +20 ms and a pause at +25 ms persist exactly 20 ms |
| Widget.Load | script.js:54-62 | after startup neither component runs; the timer holds the stored value when it parses to a non-zero integer and 300 otherwise, shown formatted; the stopwatch holds the stored value or 0; the store is only read |
| Widget.LoadedInputsSplitDuration | script.js:57-59 | for a non-negative loaded duration the inputs hold its hours, its minutes and its seconds, and together they give that duration back |
| Widget.LoadedInputsAreFields | script.js:55-58 | for every loaded duration, negative ones included, the display shows the three input values, each padded to two places and joined by colons |
| Widget.RecoverFortyTwo | script.js:54-56 | a stored `"42"` loads as a paused timer showing `"00:00:42"` |
| Widget.RecoverPausedTimer | script.js:250 | a reload after a pause restores the paused `totalTime`, except that 0 comes back as 300 |
| Widget.RecoverTickedTimer | script.js:237-242 | a reload after any tick restores the remaining time, paused; after the expiring tick it loads 300, shown formatted |
| Widget.RecoverResetTimer | script.js:255-260 | after a reset, in memory 0 and after a reload 300; a start from either runs for 300 seconds |
| Widget.RecoverPausedWatch | script.js:290 | a reload after a stopwatch pause restores the paused elapsed time, paused |
| Widget.RecoverTickedWatch | script.js:283 | a reload after a stopwatch tick restores that tick's elapsed time, paused |
| Widget.RestartAfterExpiry | script.js:225-231 | after a countdown expires, typing 0 h 0 min 10 s into the inputs and starting runs the timer for 10 seconds, with no alert |
| Widget.RunKeepsTimerValid | script.js:223-261 | over any sequence of events, a running timer always has at least one second left |
| Widget.Step | script.js:223-298 | a timer event leaves the stopwatch and its record alone; a stopwatch event leaves the timer, the alerts and the timer's record alone; the only alert ever added is the zero-duration one, on a start |
| Widget.TimerStep | script.js:223-261 | a timer button, tick or input edit leaves the stopwatch and every record but the timer's alone, and adds at most the zero-duration alert |
| Widget.WatchStep | script.js:277-298 | a stopwatch button or tick leaves the timer, the alerts and every record but the stopwatch's alone |
| Widget.ComponentsIndependent | script.js:213-298 | however the events interleave, the timer's state, alerts and stored record are those of its own events alone, and likewise for the stopwatch |

## Left out

- DOM access is modelled by values: display text, input strings, and the list of raised alerts. `alert` is modelled as an entry in that list.
- `setInterval` and `clearInterval` become the `running` flag; each firing becomes an explicit tick event.
  `Date.now()` becomes the `now` argument. Timing, jitter and the order of firings are whatever the event sequence says.
- Numbers are unbounded integers. IEEE-754 behaviour is not modelled: rounding above 2^53, exponent notation from 10^21 in `toString`, and `Math.floor` of an inexact quotient. Every value here is an integer, and below those sizes the code computes exactly.
- `parseInt` is modelled on string arguments. The only non-string it receives, `null` from `getItem`, is modelled as the string `"null"`, which is how `parseInt` treats it.
- The inputs are arbitrary strings. A browser's sanitising of `<input type="number">` values only narrows them.
- The settings half of `loadSettings` (script.js:24-51) is not part of this model: theme, colour, font, background, goal, pin and hide are page styling with no state logic.
  The same holds for `setSessionGoal`, `toggleMenu`, `togglePin`, `toggleHide`, `setTheme` (which reads styles after a deferred `setTimeout`), `setCustomColor`, `setCustomBackground`, `clearCustomBackground` and `setFontStyle`. `hexToRgb` itself is modelled.
- `getCityFromCoords` and `getLocation` are not part of this model: browser geolocation with float formatting.
- `updateClock` is not part of this model: it renders `new Date()`, and its greeting is a fixed partition of the hour.
- `service-worker.js` is not part of this model: it is cache and fetch plumbing with no state logic.
- `showTab`, called at start-up, is not defined in `script.js` and is not part of this model.

=== FILE: countdown.dfy ===
/**
  The countdown timer: `startTimer`, the one-second tick it schedules,
  `pauseTimer` and `resetTimer`. The interval handle is the `running` flag
  and each firing of the interval is an explicit call of `Tick`.
 */
module Countdown {
  import opened JsNumber
  import opened Format
  import opened Storage

  /** The text the display shows once the countdown has run out. */
  const TimeUpText := "TIME UP!"

  /** What the timer display shows: a formatted number of seconds, or the expiry text. */
  datatype Display = Formatted(seconds: int) | TimeUp

  /** The display's `textContent`. */
  function Text(d: Display): string {
    match d
    case Formatted(n) => FormatTime(n)
    case TimeUp => TimeUpText
  }

  /** The alert raised when the timer is started with no positive duration. */
  const ZeroDurationAlert := "Please set a time greater than zero!"

  /**
    `totalTime`, whether `timerInterval` is set, the text of the timer display
    and the text of the hours, minutes and seconds inputs.
   */
  datatype Timer = Timer(
    totalTime: int,
    running: bool,
    display: Display,
    hours: string,
    minutes: string,
    seconds: string)

  /** A running countdown always has at least one second left. */
  predicate Valid(t: Timer) {
    t.running ==> t.totalTime >= 1
  }

  /** The duration typed into the inputs: `(h * 3600) + (m * 60) + s`, each `parseInt(value) || 0`. */
  function InputDuration(t: Timer): int {
    OrDefault(ParseInt(t.hours), 0) * 3600 + OrDefault(ParseInt(t.minutes), 0) * 60 + OrDefault(ParseInt(t.seconds), 0)
  }

  /** What `startTimer` leaves behind, and whether it raised the zero-duration alert. */
  datatype Started = Started(timer: Timer, alerted: bool)

  /**
    Whether `startTimer` takes the duration from the inputs rather than from
    `totalTime`: the code compares the display text with "TIME UP!", which
    (TextIsTimeUp) is the same as the display being the expiry text.
   */
  predicate Rederives(t: Timer) {
    t.totalTime == 0 || t.display.TimeUp?
  }

  /**
    `startTimer`: does nothing while an interval exists; otherwise takes the
    duration from the inputs when the timer is at 0 or shows the expiry text,
    then either alerts (duration not positive) or starts the interval.
    The re-derived duration is kept even when the start is refused.
   */
  function Start(t: Timer): (r: Started)
    ensures t.running ==> r == Started(t, false)
    ensures !t.running && Rederives(t) ==> r.timer.totalTime == InputDuration(t)
    ensures !t.running && !Rederives(t) ==> r.timer.totalTime == t.totalTime
    ensures r.alerted <==> !t.running && r.timer.totalTime <= 0
    ensures r.timer.running <==> !r.alerted
    ensures Valid(t) ==> Valid(r.timer)
    ensures !t.running ==> Valid(r.timer)
    ensures r.timer.display == t.display
    ensures (r.timer.hours, r.timer.minutes, r.timer.seconds) == (t.hours, t.minutes, t.seconds)
  {
    if t.running then Started(t, false)
    else
      var total := if Rederives(t) then InputDuration(t) else t.totalTime;
      if total <= 0 then Started(t.(totalTime := total), true)
      else Started(t.(totalTime := total, running := true), false)
  }

  /**
    One firing of the one-second interval: decrement, show and persist the new
    value; at zero or below, clear the interval, show the expiry text and
    persist 0. Without an interval nothing fires.
   */
  function Tick(t: Timer, store: Store): (r: Saved<Timer>)
    ensures !t.running ==> r == Saved(t, store)
    ensures t.running ==> r.state.totalTime == t.totalTime - 1
    ensures t.running ==> (r.state.running <==> r.state.totalTime > 0)
    ensures t.running && r.state.running ==> r.state.display == Formatted(r.state.totalTime)
    ensures t.running && !r.state.running ==> r.state.display == TimeUp
    ensures t.running && r.state.running ==> Holds(r.store, TotalTimeKey, r.state.totalTime)
    ensures t.running && !r.state.running ==> Holds(r.store, TotalTimeKey, 0)
    ensures Valid(t) ==> Valid(r.state)
    ensures Valid(t) && t.running ==> r.state.totalTime >= 0
    ensures (r.state.hours, r.state.minutes, r.state.seconds) == (t.hours, t.minutes, t.seconds)
    ensures r.store - {TotalTimeKey} == store - {TotalTimeKey}
  {
    if !t.running then Saved(t, store)
    else
      var n := t.totalTime - 1;
      var shown := t.(totalTime := n, display := Formatted(n));
      var written := Put(store, TotalTimeKey, n);
      if n <= 0 then Saved(shown.(running := false, display := TimeUp), Put(written, TotalTimeKey, 0))
      else Saved(shown, written)
  }

  /** `pauseTimer`: clears the interval and persists `totalTime`; nothing else changes. */
  function Pause(t: Timer, store: Store): (r: Saved<Timer>)
    ensures !r.state.running
    ensures r.state.(running := t.running) == t
    ensures Holds(r.store, TotalTimeKey, t.totalTime)
    ensures r.store - {TotalTimeKey} == store - {TotalTimeKey}
  {
    Saved(t.(running := false), Put(store, TotalTimeKey, t.totalTime))
  }

  /**
    `resetTimer`: pauses, then sets the in-memory `totalTime` to 0, the inputs
    to 0 h 5 min 0 s and the display to "00:05:00", and persists 300.
   */
  function Reset(t: Timer, store: Store): (r: Saved<Timer>)
    ensures !r.state.running && r.state.totalTime == 0
    ensures (r.state.hours, r.state.minutes, r.state.seconds) == ("0", "5", "0")
    ensures r.state.display == Formatted(300) && Text(r.state.display) == "00:05:00"
    ensures Holds(r.store, TotalTimeKey, 300)
    ensures r.store - {TotalTimeKey} == store - {TotalTimeKey}
  {
    TimerResetLiteral();
    var paused := Pause(t, store);
    var cleared := paused.state.(totalTime := 0, hours := ToString(0), minutes := ToString(5), seconds := ToString(0),
                                 display := Formatted(300));
    Saved(cleared, Put(paused.store, TotalTimeKey, 300))
  }

  /** `k` firings of the interval in a row. */
  function Ticks(t: Timer, store: Store, k: nat): Saved<Timer> {
    if k == 0 then Saved(t, store)
    else
      var before := Ticks(t, store, k - 1);
      Tick(before.state, before.store)
  }

  /**
    A running countdown with `N` seconds left keeps running, showing and
    persisting `N - k`, for each of its first `k < N` ticks, and the `N`th tick
    stops it at exactly 0 with the expiry text shown and 0 persisted.
   */
  lemma {:induction false} CountsDownToExpiry(t: Timer, store: Store, k: nat)
    requires t.running && Valid(t)
    requires k <= t.totalTime
    ensures var r := Ticks(t, store, k);
      && (r.state.hours, r.state.minutes, r.state.seconds) == (t.hours, t.minutes, t.seconds)
      && (k < t.totalTime ==> r.state.running && r.state.totalTime == t.totalTime - k)
      && (0 < k < t.totalTime ==>
            r.state.display == Formatted(t.totalTime - k) && Holds(r.store, TotalTimeKey, t.totalTime - k))
      && (k == t.totalTime ==>
            !r.state.running && r.state.totalTime == 0 && r.state.display == TimeUp
            && Holds(r.store, TotalTimeKey, 0))
  {
    if k > 0 {
      CountsDownToExpiry(t, store, k - 1);
      var before := Ticks(t, store, k - 1);
      assert before.state.running && before.state.totalTime == t.totalTime - (k - 1);
      var r := Tick(before.state, before.store);
      assert Ticks(t, store, k) == r;
      assert r.state.totalTime == t.totalTime - k;
      assert r.state.running <==> k < t.totalTime;
    }
  }

  /** A timer without an interval ignores firings: none can reach it. */
  lemma {:induction false} IdleTicks(t: Timer, store: Store, k: nat)
    requires !t.running
    ensures Ticks(t, store, k) == Saved(t, store)
  {
    if k > 0 {
      IdleTicks(t, store, k - 1);
    }
  }

  /**
    Once a running countdown with `N` seconds left has expired, after its `N`th
    tick, any further firings leave the timer and the store as expiry left them.
   */
  lemma {:induction false} ExpiredStaysPut(t: Timer, store: Store, j: nat)
    requires t.running && Valid(t)
    ensures Ticks(t, store, t.totalTime + j) == Ticks(t, store, t.totalTime)
  {
    if j > 0 {
      ExpiredStaysPut(t, store, j - 1);
      CountsDownToExpiry(t, store, t.totalTime);
      var expired := Ticks(t, store, t.totalTime);
      assert !expired.state.running;
      assert Ticks(t, store, t.totalTime + j) == Tick(expired.state, expired.store);
    }
  }

  /** No formatted time can be mistaken for the expiry text, so the display text is "TIME UP!" exactly when it shows expiry. */
  lemma TextIsTimeUp(d: Display)
    ensures Text(d) == TimeUpText <==> d.TimeUp?
  {
    if d.Formatted? {
      FormatsAreClockText(d.seconds);
      assert !IsClockChar(TimeUpText[0]);
    }
  }

  /** Pausing twice is the same as pausing once. */
  lemma PauseIdempotent(t: Timer, store: Store)
    ensures var once := Pause(t, store);
      Pause(once.state, once.store) == once
  {
    var once := Pause(t, store);
    assert once.store[TotalTimeKey := ToString(t.totalTime)] == once.store;
  }

  /** Inputs holding the strings of three integers give back their weighted sum. */
  lemma InputDurationOfNumbers(t: Timer, h: int, m: int, sec: int)
    requires (t.hours, t.minutes, t.seconds) == (ToString(h), ToString(m), ToString(sec))
    ensures InputDuration(t) == h * 3600 + m * 60 + sec
  {
    OrDefaultOfToString(h, 0);
    OrDefaultOfToString(m, 0);
    OrDefaultOfToString(sec, 0);
  }

  /** After a reset the next start takes its duration from the reset inputs: 300 seconds. */
  lemma StartAfterReset(t: Timer, store: Store)
    ensures var r := Start(Reset(t, store).state);
      !r.alerted && r.timer.running && r.timer.totalTime == 300
  {
    InputDurationOfNumbers(Reset(t, store).state, 0, 5, 0);
  }

  /** After expiry the next start takes its duration from the inputs, which expiry left untouched. */
  lemma StartAfterExpiry(t: Timer, store: Store)
    requires t.running && Valid(t)
    ensures var expired := Ticks(t, store, t.totalTime as nat).state;
      Start(expired).timer.totalTime == InputDuration(t)
  {
    CountsDownToExpiry(t, store, t.totalTime as nat);
  }

  /**
    A start from 0 or from the expiry text alerts and leaves no interval
    exactly when the inputs hold no positive duration; either way
    `totalTime` becomes the input duration.
   */
  lemma ZeroDurationRejected(t: Timer)
    requires !t.running && Rederives(t)
    ensures var r := Start(t);
      && r.timer.totalTime == InputDuration(t)
      && (r.alerted <==> InputDuration(t) <= 0)
      && (r.timer.running <==> InputDuration(t) > 0)
  {
  }

  /**
    A refused start with negative inputs leaves `totalTime` negative; from then
    on every start is refused whatever the inputs say, until a reset.
   */
  lemma NegativeTotalBlocksStart(t: Timer, hours: string, minutes: string, seconds: string)
    requires !t.running && t.totalTime < 0 && !t.display.TimeUp?
    ensures var r := Start(t.(hours := hours, minutes := minutes, seconds := seconds));
      r.alerted && r.timer.totalTime == t.totalTime
  {
  }

  /** Starting from 0 with the inputs set to 0 h 0 min 3 s, three ticks show the expiry text and persist 0. */
  lemma ThreeSecondScenario(t: Timer, store: Store)
    requires !t.running && t.totalTime == 0
    requires (t.hours, t.minutes, t.seconds) == ("0", "0", "3")
    ensures var started := Start(t);
      && started.timer.running && !started.alerted
      && var r := Ticks(started.timer, store, 3);
      && !r.state.running && r.state.display == TimeUp && Holds(r.store, TotalTimeKey, 0)
  {
    assert ToString(0) == "0" && ToString(3) == "3";
    InputDurationOfNumbers(t, 0, 0, 3);
    var started := Start(t).timer;
    assert started.running && started.totalTime == 3;
    CountsDownToExpiry(started, store, 3);
  }
}

=== FILE: digits.dfy ===
/**
  Digit characters and positional values in base 10 and base 16.
  These are the building blocks of the JavaScript number rendering
  (`Number.prototype.toString`) and parsing (`parseInt`) used by the clock.
 */
module Digits {

  predicate IsDecimalDigit(c: char) {
    '0' <= c <= '9'
  }

  /** A character matched by the regular-expression class `[a-f\d]` under the `i` flag. */
  predicate IsHexDigit(c: char) {
    IsDecimalDigit(c) || 'a' <= c <= 'f' || 'A' <= c <= 'F'
  }

  /** Value of a hexadecimal digit, case-insensitive. */
  function DigitValue(c: char): (v: nat)
    requires IsHexDigit(c)
    ensures v < 16
    ensures IsDecimalDigit(c) <==> v < 10
  {
    if IsDecimalDigit(c) then c as int - '0' as int
    else if 'a' <= c <= 'f' then c as int - 'a' as int + 10
    else c as int - 'A' as int + 10
  }

  /** The radixes the clock uses: 10 for stored and typed numbers, 16 for colours. */
  predicate IsRadix(radix: nat) {
    radix == 10 || radix == 16
  }

  predicate IsRadixDigit(c: char, radix: nat) {
    IsHexDigit(c) && DigitValue(c) < radix
  }

  predicate AllDigits(s: string, radix: nat) {
    forall i | 0 <= i < |s| :: IsRadixDigit(s[i], radix)
  }

  /** Positional value of a digit string, most significant digit first (the empty string is 0). */
  function Value(s: string, radix: nat): nat
    requires AllDigits(s, radix)
    decreases |s|
  {
    if |s| == 0 then 0
    else Value(s[..|s| - 1], radix) * radix + DigitValue(s[|s| - 1])
  }

  /** The decimal digit character for `d`. */
  function DecimalDigit(d: nat): (c: char)
    requires d < 10
    ensures IsDecimalDigit(c) && IsHexDigit(c)
    ensures DigitValue(c) == d
  {
    ('0' as int + d) as char
  }

  /** Shortest decimal rendering of a natural number (no sign, no leading zeros). */
  function NatToDecimal(n: nat): (s: string)
    ensures |s| >= 1
    ensures AllDigits(s, 10)
    ensures Value(s, 10) == n
    ensures s[0] == '0' ==> n == 0 && |s| == 1
    ensures n < 10 <==> |s| == 1
    ensures n < 100 <==> |s| <= 2
  {
    if n < 10 then [DecimalDigit(n)]
    else
      var prefix := NatToDecimal(n / 10);
      var s := prefix + [DecimalDigit(n % 10)];
      assert s[..|s| - 1] == prefix;
      s
  }

  /** A leading zero does not change the value of a digit string. */
  lemma {:induction false} LeadingZero(s: string, radix: nat)
    requires IsRadix(radix)
    requires AllDigits(s, radix)
    ensures AllDigits(['0'] + s, radix)
    ensures Value(['0'] + s, radix) == Value(s, radix)
    decreases |s|
  {
    var z := ['0'] + s;
    assert AllDigits(z, radix) by {
      forall i | 0 <= i < |z|
        ensures IsRadixDigit(z[i], radix)
      {
        if i > 0 { assert z[i] == s[i - 1]; }
      }
    }
    if |s| > 0 {
      var init := s[..|s| - 1];
      assert z[..|z| - 1] == ['0'] + init;
      LeadingZero(init, radix);
    }
  }
}

=== FILE: format.dfy ===
/**
  The two display formats of the clock: `formatTime` (countdown, `HH:MM:SS`
  from whole seconds) and `formatStopwatchTime` (stopwatch, `HH:MM:SS:CC` from
  milliseconds), together with readers that take a display string apart
  again, so that each format can be shown to lose nothing it should keep.
 */
module Format {
  import opened Digits
  import opened JsNumber

  datatype Option<T> = None | Some(value: T)

  /** Hours, minutes and seconds as shown on the countdown display. */
  datatype Hms = Hms(hours: nat, minutes: nat, seconds: nat)

  /** Hours, minutes, seconds and centiseconds as shown on the stopwatch display. */
  datatype Hmsc = Hmsc(hours: nat, minutes: nat, seconds: nat, centis: nat)

  function Seconds(t: Hms): nat {
    t.hours * 3600 + t.minutes * 60 + t.seconds
  }

  function Millis(t: Hmsc): nat {
    t.hours * 3600000 + t.minutes * 60000 + t.seconds * 1000 + t.centis * 10
  }

  /** Characters a display string can be made of. */
  predicate IsClockChar(c: char) {
    IsDecimalDigit(c) || c == '-' || c == ':'
  }

  predicate IsClockText(s: string) {
    forall i | 0 <= i < |s| :: IsClockChar(s[i])
  }

  /** `[a, b].join(':')`. */
  function Join(a: string, b: string): string {
    a + ":" + b
  }

  /** One display field: `v.toString().padStart(2, '0')`. */
  function Field(v: int): (r: string)
    ensures |r| >= 2
  {
    PadStart2(ToString(v))
  }

  /** `formatTime(totalSeconds)`: floor-divided hours, then minutes and seconds from JavaScript's `%`. */
  function FormatTime(totalSeconds: int): string {
    Join(Join(Field(totalSeconds / 3600), Field(Rem(totalSeconds, 3600) / 60)), Field(Rem(totalSeconds, 60)))
  }

  /** `formatStopwatchTime(ms)`: hours, minutes, seconds and centiseconds, each padded to two places. */
  function FormatStopwatchTime(ms: int): string {
    var hms := Join(Join(Field(ms / 3600000), Field(Rem(ms, 3600000) / 60000)), Field(Rem(ms, 60000) / 1000));
    Join(hms, Field(Rem(ms, 1000) / 10))
  }

  lemma FieldIsClockText(v: int)
    ensures IsClockText(Field(v))
  {
  }

  lemma JoinIsClockText(a: string, b: string)
    requires IsClockText(a) && IsClockText(b)
    ensures IsClockText(Join(a, b))
  {
    var r := Join(a, b);
    forall i | 0 <= i < |r|
      ensures IsClockChar(r[i])
    {
      if i < |a| { assert r[i] == a[i]; }
      else if i > |a| { assert r[i] == b[i - |a| - 1]; }
    }
  }

  /** Every display string, for any input, is made only of digits, minus signs and colons. */
  lemma FormatsAreClockText(n: int)
    ensures IsClockText(FormatTime(n))
    ensures IsClockText(FormatStopwatchTime(n))
  {
    FieldIsClockText(n / 3600);
    FieldIsClockText(Rem(n, 3600) / 60);
    FieldIsClockText(Rem(n, 60));
    JoinIsClockText(Field(n / 3600), Field(Rem(n, 3600) / 60));
    JoinIsClockText(Join(Field(n / 3600), Field(Rem(n, 3600) / 60)), Field(Rem(n, 60)));
    FieldIsClockText(n / 3600000);
    FieldIsClockText(Rem(n, 3600000) / 60000);
    FieldIsClockText(Rem(n, 60000) / 1000);
    FieldIsClockText(Rem(n, 1000) / 10);
    var hm := Join(Field(n / 3600000), Field(Rem(n, 3600000) / 60000));
    JoinIsClockText(Field(n / 3600000), Field(Rem(n, 3600000) / 60000));
    JoinIsClockText(hm, Field(Rem(n, 60000) / 1000));
    JoinIsClockText(Join(hm, Field(Rem(n, 60000) / 1000)), Field(Rem(n, 1000) / 10));
  }

  /** Reads `H…H:MM:SS` (at least two hour digits) back into its fields. */
  function ReadTime(s: string): Option<Hms> {
    if |s| >= 8 && s[|s| - 6] == ':' && s[|s| - 3] == ':' then
      ReadFields(s[..|s| - 6], s[|s| - 5..|s| - 3], s[|s| - 2..])
    else None
  }

  /** The values of three digit fields, if they are all digits. */
  function ReadFields(hh: string, mm: string, ss: string): Option<Hms> {
    if AllDigits(hh, 10) && AllDigits(mm, 10) && AllDigits(ss, 10) then
      Some(Hms(Value(hh, 10), Value(mm, 10), Value(ss, 10)))
    else None
  }

  /** Reads `H…H:MM:SS:CC` (at least two hour digits) back into its fields. */
  function ReadStopwatch(s: string): Option<Hmsc> {
    if |s| >= 3 && s[|s| - 3] == ':' && AllDigits(s[|s| - 2..], 10) then
      match ReadTime(s[..|s| - 3])
      case Some(t) => Some(Hmsc(t.hours, t.minutes, t.seconds, Value(s[|s| - 2..], 10)))
      case None => None
    else None
  }

  /** A field of a non-negative value is its zero-padded decimal numeral, at least two digits long. */
  lemma FieldOfNat(v: nat)
    ensures AllDigits(Field(v), 10)
    ensures Value(Field(v), 10) == v
    ensures v < 100 <==> |Field(v)| == 2
  {
    var d := NatToDecimal(v);
    assert ToString(v) == d;
    if |d| == 1 {
      assert Field(v) == ['0'] + d;
      LeadingZero(d, 10);
    }
  }

  /** The countdown fields of `n` seconds: minutes and seconds below 60, and together exactly `n`. */
  lemma HmsArithmetic(n: nat)
    ensures (n % 3600) / 60 < 60 && n % 60 < 60
    ensures (n % 3600) % 60 == n % 60
    ensures (n / 3600) * 3600 + ((n % 3600) / 60) * 60 + n % 60 == n
  {
  }

  /** The stopwatch fields of `ms` milliseconds: together they are `ms` rounded down to a multiple of 10. */
  lemma HmscArithmetic(ms: nat)
    ensures (ms % 3600000) / 60000 < 60 && (ms % 60000) / 1000 < 60 && (ms % 1000) / 10 < 100
    ensures (ms / 3600000) * 3600000 + ((ms % 3600000) / 60000) * 60000
            + ((ms % 60000) / 1000) * 1000 + ((ms % 1000) / 10) * 10 == ms - ms % 10
  {
    var q1, r1 := ms / 3600000, ms % 3600000;
    var q2, r2 := r1 / 60000, r1 % 60000;
    assert ms == 60000 * (60 * q1 + q2) + r2;
    ModUnique(ms, 60000, 60 * q1 + q2, r2);
    var q3, r3 := r2 / 1000, r2 % 1000;
    assert ms == 1000 * (60 * (60 * q1 + q2) + q3) + r3;
    ModUnique(ms, 1000, 60 * (60 * q1 + q2) + q3, r3);
    var q4, r4 := r3 / 10, r3 % 10;
    assert ms == 10 * (100 * (60 * (60 * q1 + q2) + q3) + q4) + r4;
    ModUnique(ms, 10, 100 * (60 * (60 * q1 + q2) + q3) + q4, r4);
  }

  /** Euclidean division leaves a unique remainder. */
  lemma ModUnique(a: int, b: int, q: int, r: int)
    requires b == 10 || b == 1000 || b == 60000
    requires a == b * q + r && 0 <= r < b
    ensures a % b == r
  {
  }

  /** Reading a string already cut into three digit fields at its colons gives back their values. */
  lemma ReadTimeOfSplit(s: string, a: string, b: string, c: string)
    requires |a| >= 2 && |s| == |a| + 6
    requires AllDigits(a, 10) && AllDigits(b, 10) && AllDigits(c, 10)
    requires s[..|s| - 6] == a && s[|s| - 5..|s| - 3] == b && s[|s| - 2..] == c
    requires s[|s| - 6] == ':' && s[|s| - 3] == ':'
    ensures ReadTime(s) == Some(Hms(Value(a, 10), Value(b, 10), Value(c, 10)))
  {
  }

  /** Reading three digit fields joined by colons gives back their values. */
  lemma ReadTimeOfFields(a: string, b: string, c: string)
    requires |a| >= 2 && |b| == 2 && |c| == 2
    requires AllDigits(a, 10) && AllDigits(b, 10) && AllDigits(c, 10)
    ensures ReadTime(a + ":" + b + ":" + c) == Some(Hms(Value(a, 10), Value(b, 10), Value(c, 10)))
  {
    var s := a + ":" + b + ":" + c;
    var n := |a|;
    assert |s| == n + 6;
    assert s[..|s| - 6] == a;
    assert s[|s| - 6] == ':' && s[|s| - 3] == ':';
    assert s[|s| - 5..|s| - 3] == b by {
      assert s[|s| - 5..|s| - 3] == [s[n + 1], s[n + 2]];
      assert b == [b[0], b[1]];
    }
    assert s[|s| - 2..] == c by {
      assert s[|s| - 2..] == [s[n + 4], s[n + 5]];
      assert c == [c[0], c[1]];
    }
    ReadTimeOfSplit(s, a, b, c);
  }

  /** Reading four digit fields joined by colons gives back their values. */
  lemma ReadStopwatchOfFields(a: string, b: string, c: string, d: string)
    requires |a| >= 2 && |b| == 2 && |c| == 2 && |d| == 2
    requires AllDigits(a, 10) && AllDigits(b, 10) && AllDigits(c, 10) && AllDigits(d, 10)
    ensures ReadStopwatch(a + ":" + b + ":" + c + ":" + d)
         == Some(Hmsc(Value(a, 10), Value(b, 10), Value(c, 10), Value(d, 10)))
  {
    var hms := a + ":" + b + ":" + c;
    var s := hms + ":" + d;
    var n := |hms|;
    assert |s| == n + 3;
    assert s[..|s| - 3] == hms;
    assert s[|s| - 3] == ':';
    assert s[|s| - 2..] == d by {
      assert s[|s| - 2..] == [s[n + 1], s[n + 2]];
      assert d == [d[0], d[1]];
    }
    ReadTimeOfFields(a, b, c);
    ReadStopwatchOfSplit(s, hms, d);
  }

  /** Reading a string already cut at its last colon into a time and a digit field. */
  lemma ReadStopwatchOfSplit(s: string, hms: string, d: string)
    requires |s| >= 3 && AllDigits(d, 10)
    requires s[..|s| - 3] == hms && s[|s| - 3] == ':' && s[|s| - 2..] == d
    requires ReadTime(hms).Some?
    ensures var t := ReadTime(hms).value;
      ReadStopwatch(s) == Some(Hmsc(t.hours, t.minutes, t.seconds, Value(d, 10)))
  {
  }

  /**
    Reading back `formatTime(n)` for `n >= 0` recovers the fields of `n`:
    whole hours, minutes below 60, seconds below 60, adding up to exactly `n`.
   */
  lemma ReadTimeOfFormat(n: int)
    requires n >= 0
    ensures ReadTime(FormatTime(n)) == Some(Hms(n / 3600, (n % 3600) / 60, n % 60))
    ensures var t := ReadTime(FormatTime(n)).value;
      t.minutes < 60 && t.seconds < 60 && Seconds(t) == n
  {
    var h, m, sec := n / 3600, (n % 3600) / 60, n % 60;
    assert Rem(n, 3600) == n % 3600 && Rem(n, 60) == sec;
    HmsArithmetic(n);
    FieldOfNat(h);
    FieldOfNat(m);
    FieldOfNat(sec);
    assert FormatTime(n) == Field(h) + ":" + Field(m) + ":" + Field(sec);
    ReadTimeOfFields(Field(h), Field(m), Field(sec));
  }

  /**
    Reading back `formatStopwatchTime(ms)` for `ms >= 0` recovers its fields:
    minutes and seconds below 60, centiseconds below 100, adding up to `ms`
    rounded down to a multiple of 10 milliseconds.
   */
  lemma ReadStopwatchOfFormat(ms: int)
    requires ms >= 0
    ensures ReadStopwatch(FormatStopwatchTime(ms))
         == Some(Hmsc(ms / 3600000, (ms % 3600000) / 60000, (ms % 60000) / 1000, (ms % 1000) / 10))
    ensures var t := ReadStopwatch(FormatStopwatchTime(ms)).value;
      t.minutes < 60 && t.seconds < 60 && t.centis < 100 && Millis(t) == ms - ms % 10
  {
    var h, m := ms / 3600000, (ms % 3600000) / 60000;
    var sec, cs := (ms % 60000) / 1000, (ms % 1000) / 10;
    assert Rem(ms, 3600000) == ms % 3600000 && Rem(ms, 60000) == ms % 60000 && Rem(ms, 1000) == ms % 1000;
    HmscArithmetic(ms);
    FieldOfNat(h);
    FieldOfNat(m);
    FieldOfNat(sec);
    FieldOfNat(cs);
    assert FormatStopwatchTime(ms) == Field(h) + ":" + Field(m) + ":" + Field(sec) + ":" + Field(cs);
    ReadStopwatchOfFields(Field(h), Field(m), Field(sec), Field(cs));
  }

  /** The countdown hour field is never truncated: 100 hours shows three hour digits. */
  lemma HoursNotCapped()
    ensures FormatTime(360000) == "100:00:00"
  {
    assert NatToDecimal(1) == "1";
    assert NatToDecimal(10) == "10";
    assert NatToDecimal(100) == "100";
    ZeroField();
    assert Field(100) == "100";
    assert 360000 / 3600 == 100 && Rem(360000, 3600) / 60 == 0 && Rem(360000, 60) == 0;
    assert FormatTime(360000) == Join(Join(Field(100), Field(0)), Field(0));
  }

  /** The literal the countdown reset writes is the format of 300 seconds. */
  lemma TimerResetLiteral()
    ensures FormatTime(300) == "00:05:00"
  {
    ZeroField();
    assert Field(5) == "05" by {
      assert DecimalDigit(5) == '5';
      assert ToString(5) == "5";
    }
    assert Rem(300, 3600) / 60 == 5 && Rem(300, 60) == 0 && 300 / 3600 == 0;
  }

  /** Forty-two seconds show as "00:00:42". */
  lemma FortyTwoSeconds()
    ensures ToString(42) == "42"
    ensures FormatTime(42) == "00:00:42"
  {
    ZeroField();
    FortyTwoString();
    assert Field(42) == "42";
    assert Rem(42, 3600) / 60 == 0 && Rem(42, 60) == 42 && 42 / 3600 == 0;
    assert FormatTime(42) == Join(Join(Field(0), Field(0)), Field(42));
  }

  /** The strings of 0 and 10, as typed into an input. */
  lemma ZeroAndTenStrings()
    ensures ToString(0) == "0" && ToString(10) == "10"
  {
    assert NatToDecimal(0) == "0";
    assert NatToDecimal(1) == "1";
    assert NatToDecimal(10) == NatToDecimal(1) + [DecimalDigit(0)];
  }

  /** "42" is built from "4" and the digit 2. */
  lemma FortyTwoString()
    ensures ToString(42) == "42"
  {
    assert NatToDecimal(4) == "4";
    assert NatToDecimal(42) == NatToDecimal(4) + [DecimalDigit(2)];
  }

  /** The literal the stopwatch reset writes is the format of 0 milliseconds. */
  lemma StopwatchResetLiteral()
    ensures FormatStopwatchTime(0) == "00:00:00:00"
  {
    ZeroField();
    assert Rem(0, 3600000) / 60000 == 0 && Rem(0, 60000) / 1000 == 0 && Rem(0, 1000) / 10 == 0;
  }

  lemma ZeroField()
    ensures Field(0) == "00"
  {
    assert DecimalDigit(0) == '0';
    assert ToString(0) == "0";
  }
}

=== FILE: hexcolor.dfy ===
/**
  `hexToRgb`: turns a colour written as an optional `#` and six hexadecimal
  digits (either case) into its red, green and blue components, and falls
  back to black for anything else.
 */
module HexColor {
  import opened Digits

  datatype Rgb = Rgb(r: int, g: int, b: int)

  predicate InRange(c: Rgb) {
    0 <= c.r < 256 && 0 <= c.g < 256 && 0 <= c.b < 256
  }

  /** Whether the whole of `s` matches `/^#?([a-f\d]{2})([a-f\d]{2})([a-f\d]{2})$/i`. */
  predicate Matches(s: string) {
    || (|s| == 6 && AllDigits(s, 16))
    || (|s| == 7 && s[0] == '#' && AllDigits(s[1..], 16))
  }

  /** The six digits the three capture groups cover. */
  function Captured(s: string): (d: string)
    requires Matches(s)
    ensures |d| == 6 && AllDigits(d, 16)
  {
    if |s| == 7 then s[1..] else s
  }

  /** Value of the two-digit pair starting at `i`: what `parseInt(pair, 16)` returns for it. */
  function Pair(d: string, i: nat): (v: nat)
    requires i + 2 <= |d| && AllDigits(d, 16)
    ensures v == 16 * DigitValue(d[i]) + DigitValue(d[i + 1])
    ensures v < 256
  {
    var p := d[i..i + 2];
    assert p[..1] == [d[i]] && p[1] == d[i + 1];
    assert Value(p[..1], 16) == DigitValue(d[i]) by { assert p[..1][..0] == []; }
    Value(p, 16)
  }

  function HexToRgb(s: string): (c: Rgb)
    ensures InRange(c)
    ensures !Matches(s) ==> c == Rgb(0, 0, 0)
    ensures Matches(s) ==>
      var d := Captured(s);
      && c.r == 16 * DigitValue(d[0]) + DigitValue(d[1])
      && c.g == 16 * DigitValue(d[2]) + DigitValue(d[3])
      && c.b == 16 * DigitValue(d[4]) + DigitValue(d[5])
  {
    if Matches(s) then
      var d := Captured(s);
      Rgb(Pair(d, 0), Pair(d, 2), Pair(d, 4))
    else Rgb(0, 0, 0)
  }

  /** Lower-case hexadecimal digit for `v < 16`. */
  function LowerHexDigit(v: nat): (c: char)
    requires v < 16
    ensures IsHexDigit(c) && DigitValue(c) == v
  {
    if v < 10 then DecimalDigit(v) else ('a' as int + (v - 10)) as char
  }

  /** `#rrggbb` in lower case: the value a colour picker reports. */
  function ToHex(c: Rgb): (s: string)
    requires InRange(c)
    ensures |s| == 7 && s[0] == '#'
  {
    "#" + [LowerHexDigit(c.r / 16), LowerHexDigit(c.r % 16)]
        + [LowerHexDigit(c.g / 16), LowerHexDigit(c.g % 16)]
        + [LowerHexDigit(c.b / 16), LowerHexDigit(c.b % 16)]
  }

  /** A colour written as `#rrggbb` is read back exactly. */
  lemma HexToRgbOfToHex(c: Rgb)
    requires InRange(c)
    ensures HexToRgb(ToHex(c)) == c
  {
    var s := ToHex(c);
    assert AllDigits(s[1..], 16);
    assert Matches(s);
  }

  /** ASCII lower-casing, the only case mapping the `i` flag applies to `[a-f]`. */
  function Lower(c: char): (l: char)
    ensures IsHexDigit(c) <==> IsHexDigit(l)
    ensures IsHexDigit(c) ==> DigitValue(l) == DigitValue(c)
  {
    if 'A' <= c <= 'Z' then (c as int - 'A' as int + 'a' as int) as char else c
  }

  function LowerString(s: string): (r: string)
    ensures |r| == |s|
    ensures forall i | 0 <= i < |s| :: r[i] == Lower(s[i])
  {
    seq(|s|, i requires 0 <= i < |s| => Lower(s[i]))
  }

  /** Case does not matter: a string and its lower-case form give the same colour. */
  lemma HexToRgbIgnoresCase(s: string)
    ensures HexToRgb(LowerString(s)) == HexToRgb(s)
  {
    var l := LowerString(s);
    if |s| == 7 {
      assert LowerString(s)[1..] == LowerString(s[1..]);
    }
    assert Matches(l) <==> Matches(s);
  }
}

=== FILE: jsnumber.dfy ===
/**
  The slice of JavaScript number semantics the clock relies on, restricted to
  integer values: the truncating remainder `%`, `Number.prototype.toString`,
  `String.prototype.padStart(2, '0')`, the global `parseInt` without a radix,
  and the `parseInt(x) || default` idiom.
 */
module JsNumber {
  import opened Digits

  /** What `parseInt` produces: an integer or NaN. */
  datatype Num = NaN | Int(value: int)

  /**
    JavaScript's `a % b` for a positive divisor: the remainder of division
    truncated toward zero, so it takes the sign of `a`.
   */
  function Rem(a: int, b: int): (r: int)
    requires b > 0
    ensures -b < r < b
    ensures a >= 0 ==> r == a % b
    ensures a <= 0 ==> r <= 0
  {
    if a >= 0 then a % b else -((-a) % b)
  }

  /** JavaScript's `%` takes the sign of the dividend: negating it negates the remainder. */
  lemma RemNegate(a: int, b: int)
    requires b > 0
    ensures Rem(-a, b) == -Rem(a, b)
  {
  }

  /** `n.toString()` for an integer `n` (decimal, leading `-` when negative). */
  function ToString(n: int): (s: string)
    ensures |s| >= 1
    ensures s[0] == '-' <==> n < 0
    ensures n >= 0 ==> s == "0" || s[0] != '0'
    ensures n < 0 ==> |s| >= 2 && s[1] != '0'
    ensures forall i | 0 <= i < |s| :: s[i] == '-' || IsDecimalDigit(s[i])
  {
    if n >= 0 then NatToDecimal(n) else "-" + NatToDecimal(-n)
  }

  /** `s.padStart(2, '0')`: pads on the left up to length 2 and never truncates. */
  function PadStart2(s: string): (r: string)
    ensures |r| == if |s| >= 2 then |s| else 2
    ensures r[|r| - |s|..] == s
    ensures forall i | 0 <= i < |r| - |s| :: r[i] == '0'
  {
    if |s| >= 2 then s
    else if |s| == 1 then ['0'] + s
    else "00"
  }

  /** The characters `parseInt` strips from the front: ECMAScript WhiteSpace and LineTerminator. */
  predicate IsWhiteSpace(c: char) {
    c == '\t' || c == '\n' || c == '\U{000B}' || c == '\U{000C}' || c == '\r' || c == ' '
    || c == '\U{00A0}' || c == '\U{1680}' || ('\U{2000}' <= c <= '\U{200A}')
    || c == '\U{2028}' || c == '\U{2029}' || c == '\U{202F}' || c == '\U{205F}'
    || c == '\U{3000}' || c == '\U{FEFF}'
  }

  function TrimStart(s: string): (r: string)
    ensures |r| <= |s| && r == s[|s| - |r|..]
    ensures |r| > 0 ==> !IsWhiteSpace(r[0])
    ensures forall i | 0 <= i < |s| - |r| :: IsWhiteSpace(s[i])
  {
    if |s| > 0 && IsWhiteSpace(s[0]) then TrimStart(s[1..]) else s
  }

  /** The longest prefix of `s` made of digits of the given radix. */
  function DigitPrefix(s: string, radix: nat): (p: string)
    ensures p <= s
    ensures AllDigits(p, radix)
    ensures |p| < |s| ==> !IsRadixDigit(s[|p|], radix)
  {
    if |s| > 0 && IsRadixDigit(s[0], radix) then [s[0]] + DigitPrefix(s[1..], radix) else []
  }

  /**
    The global `parseInt(s)` with no radix argument: skip leading white space,
    then read an optionally signed numeral.
   */
  function ParseInt(s: string): Num {
    ParseSigned(TrimStart(s))
  }

  /**
    An optional `-` or `+` followed by an unsigned numeral. (A negative zero is
    the integer 0 here: it is falsy and prints as "0" like positive zero.)
   */
  function ParseSigned(t: string): Num {
    if |t| > 0 && t[0] == '-' then
      match ParseUnsigned(t[1..])
      case NaN => NaN
      case Int(v) => Int(-v)
    else if |t| > 0 && t[0] == '+' then ParseUnsigned(t[1..])
    else ParseUnsigned(t)
  }

  /**
    Base 16 after a `0x`/`0X` prefix, base 10 otherwise; the longest run of
    digits is read and the rest ignored; no digits at all gives NaN.
   */
  function ParseUnsigned(u: string): (r: Num)
    ensures r.Int? ==> r.value >= 0
  {
    var hex := |u| >= 2 && u[0] == '0' && (u[1] == 'x' || u[1] == 'X');
    var radix := if hex then 16 else 10;
    var digits := DigitPrefix(if hex then u[2..] else u, radix);
    if |digits| == 0 then NaN else Int(Value(digits, radix))
  }

  /** `p || fallback` where `p` is a `parseInt` result: NaN and 0 are falsy. */
  function OrDefault(p: Num, fallback: int): (r: int)
    ensures r == fallback || (p.Int? && r == p.value)
    ensures p.Int? && p.value != 0 ==> r == p.value
    ensures r == fallback <== p.NaN? || p.value == 0
    ensures r != 0 ==> r == fallback || p.Int?
  {
    if p.Int? && p.value != 0 then p.value else fallback
  }

  lemma DigitPrefixOfDigits(s: string, radix: nat)
    requires AllDigits(s, radix)
    ensures DigitPrefix(s, radix) == s
  {
  }

  /** A plain unsigned decimal numeral is read back at its value (a leading zero is never taken for `0x`). */
  lemma ParseDecimal(d: string)
    requires |d| >= 1 && AllDigits(d, 10)
    ensures ParseUnsigned(d) == Int(Value(d, 10))
  {
    DigitPrefixOfDigits(d, 10);
  }

  /** `TrimStart` leaves a string alone when it does not start with white space. */
  lemma TrimNothing(s: string)
    requires |s| > 0 && !IsWhiteSpace(s[0])
    ensures TrimStart(s) == s
  {
  }

  /** Round trip: `parseInt(String(n)) === n` for every integer `n`. */
  lemma ParseIntOfToString(n: int)
    ensures ParseInt(ToString(n)) == Int(n)
  {
    if n >= 0 {
      ParseNatural(n);
    } else {
      ParseNegative(-n);
    }
  }

  /** The non-negative half of the round trip. */
  lemma ParseNatural(n: nat)
    ensures ParseInt(NatToDecimal(n)) == Int(n)
  {
    var d := NatToDecimal(n);
    assert IsDecimalDigit(d[0]);
    TrimNothing(d);
    assert ParseSigned(d) == ParseUnsigned(d);
    ParseDecimal(d);
  }

  /** The negative half of the round trip: the sign is read, then the digits. */
  lemma ParseNegative(n: nat)
    requires n > 0
    ensures ParseInt("-" + NatToDecimal(n)) == Int(-(n as int))
  {
    var d := NatToDecimal(n);
    var m := "-" + d;
    TrimNothing(m);
    assert m[1..] == d;
    ParseDecimal(d);
    assert ParseSigned(m) == Int(-(n as int));
  }

  /** The `|| default` fallback undone: a non-zero integer written with `toString` is read back unchanged. */
  lemma OrDefaultOfToString(n: int, fallback: int)
    ensures OrDefault(ParseInt(ToString(n)), fallback) == if n == 0 then fallback else n
  {
    ParseIntOfToString(n);
  }

  /** `parseInt(null)` reads the string "null", which has no digits. */
  lemma ParseIntOfNull()
    ensures ParseInt("null") == NaN
  {
    assert TrimStart("null") == "null";
    assert DigitPrefix("null", 10) == [];
  }

  /** `parseInt` skips leading white space and stops at the first non-digit. */
  lemma ParseIntReadsPrefix()
    ensures ParseInt(" 42px") == Int(42)
  {
    var s := " 42px";
    assert s[1..] == "42px";
    TrimNothing("42px");
    assert TrimStart(s) == "42px";
    assert DigitPrefix("px", 10) == [];
    assert DigitPrefix("2px", 10) == "2" by { assert "2px"[1..] == "px"; }
    assert DigitPrefix("42px", 10) == "42" by { assert "42px"[1..] == "2px"; }
    assert Value("42", 10) == 42 by { assert "42"[..1] == "4"; }
    assert ParseUnsigned("42px") == Int(42);
  }

  /** Without a radix argument `parseInt` honours a hexadecimal `0x` prefix after the sign. */
  lemma ParseIntHexPrefix()
    ensures ParseInt("+0x1F") == Int(31)
    ensures ParseInt("0x") == NaN
  {
    TrimNothing("+0x1F");
    assert "+0x1F"[1..] == "0x1F";
    assert "0x1F"[2..] == "1F";
    assert DigitPrefix("F", 16) == "F" by { assert "F"[1..] == ""; }
    assert DigitPrefix("1F", 16) == "1F" by { assert "1F"[1..] == "F"; }
    assert Value("1F", 16) == 31 by { assert "1F"[..1] == "1"; }
    assert ParseUnsigned("0x1F") == Int(31);
    TrimNothing("0x");
    assert "0x"[2..] == "";
    assert ParseUnsigned("0x") == NaN;
  }
}

=== FILE: stopwatch.dfy ===
/**
  The stopwatch: `startStopwatch`, the 10 ms tick it schedules,
  `pauseStopwatch` and `resetStopwatch`. Elapsed time is measured from an
  anchor instant rather than counted tick by tick; the clock reading `now`
  of each start and tick is a parameter.
 */
module Stopwatch {
  import opened Format
  import opened Storage

  /**
    `stopwatchTime` (elapsed milliseconds), whether `stopwatchInterval` is set,
    `stopwatchStartTime` (the anchor) and the number of milliseconds the
    display currently shows, formatted by `formatStopwatchTime`.
   */
  datatype Watch = Watch(elapsed: int, running: bool, anchor: int, shown: int)

  /** The display's `textContent`. */
  function Text(w: Watch): string {
    FormatStopwatchTime(w.shown)
  }

  /**
    `startStopwatch` at clock reading `now`: nothing while an interval exists;
    otherwise anchors at `now - elapsed`, so that a tick at `now` would read
    the current elapsed time, and starts the interval.
   */
  function Start(w: Watch, now: int): (r: Watch)
    ensures w.running ==> r == w
    ensures !w.running ==> r.running && now - r.anchor == w.elapsed
    ensures r.elapsed == w.elapsed && r.shown == w.shown
  {
    if w.running then w
    else w.(anchor := now - w.elapsed, running := true)
  }

  /**
    One firing of the 10 ms interval at clock reading `now`: elapsed time is
    recomputed from the anchor, shown and persisted. Without an interval
    nothing fires.
   */
  function Tick(w: Watch, now: int, store: Store): (r: Saved<Watch>)
    ensures !w.running ==> r == Saved(w, store)
    ensures w.running ==> r.state == w.(elapsed := now - w.anchor, shown := now - w.anchor)
    ensures w.running ==> Holds(r.store, StopwatchTimeKey, now - w.anchor)
    ensures r.store - {StopwatchTimeKey} == store - {StopwatchTimeKey}
  {
    if !w.running then Saved(w, store)
    else
      var e := now - w.anchor;
      Saved(w.(elapsed := e, shown := e), Put(store, StopwatchTimeKey, e))
  }

  /** `pauseStopwatch`: clears the interval and persists the elapsed time; nothing else changes. */
  function Pause(w: Watch, store: Store): (r: Saved<Watch>)
    ensures !r.state.running
    ensures r.state.(running := w.running) == w
    ensures Holds(r.store, StopwatchTimeKey, w.elapsed)
    ensures r.store - {StopwatchTimeKey} == store - {StopwatchTimeKey}
  {
    Saved(w.(running := false), Put(store, StopwatchTimeKey, w.elapsed))
  }

  /** `resetStopwatch`: pauses, then zeroes the elapsed time, shows "00:00:00:00" and persists 0. */
  function Reset(w: Watch, store: Store): (r: Saved<Watch>)
    ensures !r.state.running && r.state.elapsed == 0
    ensures r.state == w.(running := false, elapsed := 0, shown := 0)
    ensures Text(r.state) == "00:00:00:00"
    ensures Holds(r.store, StopwatchTimeKey, 0)
    ensures r.store - {StopwatchTimeKey} == store - {StopwatchTimeKey}
  {
    StopwatchResetLiteral();
    var paused := Pause(w, store);
    Saved(paused.state.(elapsed := 0, shown := 0), Put(paused.store, StopwatchTimeKey, 0))
  }

  /** Pausing twice is the same as pausing once. */
  lemma PauseIdempotent(w: Watch, store: Store)
    ensures var once := Pause(w, store);
      Pause(once.state, once.store) == once
  {
    var once := Pause(w, store);
    assert once.store[StopwatchTimeKey := once.store[StopwatchTimeKey]] == once.store;
  }

  /** Firings of the interval at the given clock readings, in order. */
  function TickAt(w: Watch, times: seq<int>, store: Store): Saved<Watch>
    decreases |times|
  {
    if |times| == 0 then Saved(w, store)
    else
      var first := Tick(w, times[0], store);
      TickAt(first.state, times[1..], first.store)
  }

  /**
    While running, however many ticks fire, the elapsed time is the last
    tick's clock reading minus the anchor: ticks do not accumulate, so late
    or missed firings cause no drift.
   */
  lemma {:induction false} ElapsedFromAnchor(w: Watch, times: seq<int>, store: Store)
    requires w.running && |times| > 0
    ensures var r := TickAt(w, times, store);
      && r.state.running && r.state.anchor == w.anchor
      && r.state.elapsed == times[|times| - 1] - w.anchor
      && r.state.shown == r.state.elapsed
      && Holds(r.store, StopwatchTimeKey, r.state.elapsed)
    decreases |times|
  {
    if |times| > 1 {
      var first := Tick(w, times[0], store);
      ElapsedFromAnchor(first.state, times[1..], first.store);
      assert times[1..][|times| - 2] == times[|times| - 1];
    }
  }

  /**
    While running, with clock readings that never go backwards, the elapsed
    time after more ticks is never smaller than after fewer.
   */
  lemma ElapsedNeverDecreases(w: Watch, times: seq<int>, store: Store, i: nat, j: nat)
    requires w.running
    requires forall p, q | 0 <= p <= q < |times| :: times[p] <= times[q]
    requires 0 < i <= j <= |times|
    ensures TickAt(w, times[..i], store).state.elapsed <= TickAt(w, times[..j], store).state.elapsed
  {
    ElapsedFromAnchor(w, times[..i], store);
    ElapsedFromAnchor(w, times[..j], store);
  }

  /**
    Starting at `t0` and ticking up to `t1` adds exactly `t1 - t0` to the
    elapsed time the stopwatch had when it was started.
   */
  lemma RunAddsInterval(w: Watch, t0: int, times: seq<int>, store: Store)
    requires !w.running && |times| > 0
    ensures var r := TickAt(Start(w, t0), times, store);
      && r.state.running
      && r.state.elapsed == w.elapsed + (times[|times| - 1] - t0)
      && Holds(r.store, StopwatchTimeKey, r.state.elapsed)
  {
    ElapsedFromAnchor(Start(w, t0), times, store);
  }

  /**
    Pause and resume lose and double-count nothing: a run from `t0` to a last
    tick at `t1`, a pause, and a run from `t2` to a last tick at `t3` leave
    `elapsed + (t1 - t0) + (t3 - t2)` both in memory and in the store.
   */
  lemma PauseResumeKeepsElapsed(w: Watch, t0: int, first: seq<int>, t2: int, second: seq<int>, store: Store)
    requires !w.running && |first| > 0 && |second| > 0
    ensures var run1 := TickAt(Start(w, t0), first, store);
      var paused := Pause(run1.state, run1.store);
      var run2 := TickAt(Start(paused.state, t2), second, paused.store);
      var e := w.elapsed + (first[|first| - 1] - t0) + (second[|second| - 1] - t2);
      && run2.state.elapsed == e
      && Holds(run2.store, StopwatchTimeKey, e)
      && Holds(Pause(run2.state, run2.store).store, StopwatchTimeKey, e)
  {
    var run1 := TickAt(Start(w, t0), first, store);
    RunAddsInterval(w, t0, first, store);
    var paused := Pause(run1.state, run1.store);
    assert !paused.state.running;
    assert paused.state.elapsed == w.elapsed + (first[|first| - 1] - t0);
    RunAddsInterval(paused.state, t2, second, paused.store);
  }

  /**
    With ticks every 10 ms, a stopwatch started at `t0` and paused 25 ms
    later persists 20 ms: the time since the last tick is not counted.
   */
  lemma TwentyFiveMillisecondScenario(t0: int, store: Store)
    ensures var w := Watch(0, false, 0, 0);
      var run := TickAt(Start(w, t0), [t0 + 10, t0 + 20], store);
      var paused := Pause(run.state, run.store);
      paused.state.elapsed == 20 && Holds(paused.store, StopwatchTimeKey, 20)
  {
    ElapsedFromAnchor(Start(Watch(0, false, 0, 0), t0), [t0 + 10, t0 + 20], store);
  }
}

=== FILE: storage.dfy ===
/**
  The persisted records of the timer and the stopwatch: `localStorage` under the
  `smartClock_` prefix, holding each value as the decimal string of a number.
 */
module Storage {
  import opened JsNumber

  const Prefix := "smartClock_"
  const TotalTimeKey := Prefix + "totalTime"
  const StopwatchTimeKey := Prefix + "stopwatchTime"

  type Store = map<string, string>

  /** A component's state together with the store after the writes it made. */
  datatype Saved<T> = Saved(state: T, store: Store)

  /** `parseInt(localStorage.getItem(key))`: a missing key gives `null`, read as the string "null". */
  function Read(store: Store, key: string): (r: Num)
    ensures key !in store ==> r == NaN
  {
    ParseIntOfNull();
    ParseInt(if key in store then store[key] else "null")
  }

  /** The record under `key` is the string of the number `n`. */
  predicate Holds(store: Store, key: string, n: int) {
    key in store && store[key] == ToString(n)
  }

  /** `localStorage.setItem(key, n)`: the number is written as its string; no other key changes. */
  function Put(store: Store, key: string, n: int): (r: Store)
    ensures Holds(r, key, n)
    ensures r - {key} == store - {key}
  {
    store[key := ToString(n)]
  }

  /** A record written from a number reads back as that number. */
  lemma ReadHolds(store: Store, key: string, n: int)
    requires Holds(store, key, n)
    ensures Read(store, key) == Int(n)
  {
    ParseIntOfToString(n);
  }

  /** A key that was never written reads as NaN. */
  lemma ReadMissing(store: Store, key: string)
    requires key !in store
    ensures Read(store, key) == NaN
  {
    ParseIntOfNull();
  }

  lemma KeysDiffer()
    ensures TotalTimeKey != StopwatchTimeKey
  {
    assert TotalTimeKey[|Prefix|] != StopwatchTimeKey[|Prefix|];
  }
}

=== FILE: widget.dfy ===
/**
  The timer and the stopwatch side by side over one store: startup recovery
  (the timer/stopwatch part of `loadSettings`), the user and interval events
  that drive them, and what holds of any sequence of such events.
 */
module Widget {
  import opened JsNumber
  import opened Format
  import opened Storage
  import Countdown
  import Stopwatch

  /** The core's whole state; `alerts` lists the alerts raised so far, oldest first. */
  datatype Widget = Widget(timer: Countdown.Timer, watch: Stopwatch.Watch, store: Store, alerts: seq<string>)

  /** The duration the timer falls back to when no usable value is stored. */
  const DefaultTotalTime := 300

  /**
    Startup: the timer takes `parseInt(stored totalTime) || 300`, shows it and
    splits it into the hour, minute and second inputs; the stopwatch takes
    `parseInt(stored stopwatchTime) || 0` and shows it. Neither is running
    (no interval exists after a page load) and nothing is written.
   */
  function Load(store: Store): (w: Widget)
    ensures !w.timer.running && !w.watch.running
    ensures w.store == store && w.alerts == []
    ensures w.timer.totalTime != 0
    ensures Read(store, TotalTimeKey).Int? && Read(store, TotalTimeKey).value != 0
            ==> w.timer.totalTime == Read(store, TotalTimeKey).value
    ensures Read(store, TotalTimeKey).NaN? || Read(store, TotalTimeKey).value == 0
            ==> w.timer.totalTime == DefaultTotalTime
    ensures w.timer.display == Countdown.Formatted(w.timer.totalTime)
    ensures Read(store, StopwatchTimeKey).Int? ==> w.watch.elapsed == Read(store, StopwatchTimeKey).value
    ensures Read(store, StopwatchTimeKey).NaN? ==> w.watch.elapsed == 0
    ensures w.watch.shown == w.watch.elapsed
  {
    var total := OrDefault(Read(store, TotalTimeKey), DefaultTotalTime);
    var ms := OrDefault(Read(store, StopwatchTimeKey), 0);
    var timer := Countdown.Timer(total, false, Countdown.Formatted(total),
                                 ToString(total / 3600), ToString(Rem(total, 3600) / 60), ToString(Rem(total, 60)));
    Widget(timer, Stopwatch.Watch(ms, false, 0, ms), store, [])
  }

  /**
    For a non-negative loaded duration, the inputs hold its hours, its minutes
    below 60 and its seconds below 60, so a start that re-derives the duration
    from them gets the loaded duration back.
   */
  lemma LoadedInputsSplitDuration(store: Store)
    ensures var t := Load(store).timer;
      t.totalTime >= 0 ==>
      && t.hours == ToString(t.totalTime / 3600)
      && t.minutes == ToString((t.totalTime % 3600) / 60) && (t.totalTime % 3600) / 60 < 60
      && t.seconds == ToString(t.totalTime % 60) && t.totalTime % 60 < 60
      && Countdown.InputDuration(t) == t.totalTime
  {
    var t := Load(store).timer;
    var n := t.totalTime;
    if n >= 0 {
      HmsArithmetic(n);
      Countdown.InputDurationOfNumbers(t, n / 3600, (n % 3600) / 60, n % 60);
    }
  }

  /**
    For every loaded duration, negative ones included, the display shows the
    inputs' three values, each padded to two places and joined by colons:
    the inputs are the fields of `formatTime`.
   */
  lemma LoadedInputsAreFields(store: Store)
    ensures var t := Load(store).timer;
      Countdown.Text(t.display) == Join(Join(PadStart2(t.hours), PadStart2(t.minutes)), PadStart2(t.seconds))
  {
  }

  /** A stored 42 comes back as a paused timer showing "00:00:42". */
  lemma RecoverFortyTwo(store: Store)
    requires TotalTimeKey in store && store[TotalTimeKey] == "42"
    ensures var t := Load(store).timer;
      !t.running && t.totalTime == 42 && Countdown.Text(t.display) == "00:00:42"
  {
    FortyTwoSeconds();
    ReadHolds(store, TotalTimeKey, 42);
  }

  /** Whatever the timer held when paused comes back after a reload, except that 0 comes back as 300. */
  lemma RecoverPausedTimer(t: Countdown.Timer, store: Store)
    ensures var paused := Countdown.Pause(t, store);
      Load(paused.store).timer.totalTime == if t.totalTime == 0 then DefaultTotalTime else t.totalTime
  {
    ReadHolds(Countdown.Pause(t, store).store, TotalTimeKey, t.totalTime);
  }

  /**
    A reload after any tick of a running timer resumes, paused, from the value
    that tick left; after the expiring tick the stored 0 comes back as 300, and
    the display shows that duration rather than the expiry text.
   */
  lemma RecoverTickedTimer(t: Countdown.Timer, store: Store)
    requires t.running && Countdown.Valid(t)
    ensures var ticked := Countdown.Tick(t, store);
      var reloaded := Load(ticked.store).timer;
      && !reloaded.running
      && reloaded.totalTime == (if ticked.state.running then ticked.state.totalTime else DefaultTotalTime)
      && reloaded.display == Countdown.Formatted(reloaded.totalTime)
  {
    var ticked := Countdown.Tick(t, store);
    if ticked.state.running {
      ReadHolds(ticked.store, TotalTimeKey, ticked.state.totalTime);
    } else {
      ReadHolds(ticked.store, TotalTimeKey, 0);
    }
  }

  /**
    A reload after a reset gives 300 seconds in memory, where staying on the
    page gives 0; either way the next start runs for 300 seconds from the
    0 h 5 min 0 s inputs.
   */
  lemma RecoverResetTimer(t: Countdown.Timer, store: Store)
    ensures var reset := Countdown.Reset(t, store);
      var reloaded := Load(reset.store).timer;
      && reset.state.totalTime == 0 && reloaded.totalTime == DefaultTotalTime
      && Countdown.Start(reloaded).timer.totalTime == 300
      && Countdown.Start(reset.state).timer.totalTime == 300
  {
    var reset := Countdown.Reset(t, store);
    ReadHolds(reset.store, TotalTimeKey, 300);
    Countdown.StartAfterReset(t, store);
  }

  /** The elapsed time the stopwatch had when paused comes back after a reload. */
  lemma RecoverPausedWatch(w: Stopwatch.Watch, store: Store)
    ensures var paused := Stopwatch.Pause(w, store);
      var reloaded := Load(paused.store).watch;
      !reloaded.running && reloaded.elapsed == w.elapsed && reloaded.shown == w.elapsed
  {
    ReadHolds(Stopwatch.Pause(w, store).store, StopwatchTimeKey, w.elapsed);
  }

  /** A reload after a stopwatch tick resumes, paused, from the elapsed time of that tick. */
  lemma RecoverTickedWatch(w: Stopwatch.Watch, now: int, store: Store)
    requires w.running
    ensures var ticked := Stopwatch.Tick(w, now, store);
      var reloaded := Load(ticked.store).watch;
      !reloaded.running && reloaded.elapsed == now - w.anchor
  {
    ReadHolds(Stopwatch.Tick(w, now, store).store, StopwatchTimeKey, now - w.anchor);
  }

  /**
    The buttons of each component, the firings of their intervals, and the
    user typing new text into the timer's hours, minutes and seconds inputs.
   */
  datatype Event =
    | StartTimer | TimerTick | PauseTimer | ResetTimer | SetInputs(hours: string, minutes: string, seconds: string)
    | StartStopwatch(now: int) | StopwatchTick(now: int) | PauseStopwatch | ResetStopwatch

  predicate IsTimerEvent(e: Event) {
    e.StartTimer? || e.TimerTick? || e.PauseTimer? || e.ResetTimer? || e.SetInputs?
  }

  /**
    One event. A timer event touches only the timer, the alerts and the timer's
    record; a stopwatch event touches only the stopwatch and its record. The
    only alert ever raised is the zero-duration one.
   */
  function Step(w: Widget, e: Event): (r: Widget)
    ensures IsTimerEvent(e) ==> r.watch == w.watch && r.store - {TotalTimeKey} == w.store - {TotalTimeKey}
    ensures !IsTimerEvent(e) ==>
      r.timer == w.timer && r.alerts == w.alerts && r.store - {StopwatchTimeKey} == w.store - {StopwatchTimeKey}
    ensures r.alerts == w.alerts || (e.StartTimer? && r.alerts == w.alerts + [Countdown.ZeroDurationAlert])
  {
    if IsTimerEvent(e) then TimerStep(w, e) else WatchStep(w, e)
  }

  /** A timer button, a firing of the timer's interval, or an edit of the timer's inputs. */
  function TimerStep(w: Widget, e: Event): (r: Widget)
    requires IsTimerEvent(e)
    ensures r.watch == w.watch && r.store - {TotalTimeKey} == w.store - {TotalTimeKey}
    ensures r.alerts == w.alerts || (e.StartTimer? && r.alerts == w.alerts + [Countdown.ZeroDurationAlert])
  {
    match e
    case StartTimer =>
      var r := Countdown.Start(w.timer);
      w.(timer := r.timer, alerts := w.alerts + (if r.alerted then [Countdown.ZeroDurationAlert] else []))
    case TimerTick =>
      var r := Countdown.Tick(w.timer, w.store);
      w.(timer := r.state, store := r.store)
    case PauseTimer =>
      var r := Countdown.Pause(w.timer, w.store);
      w.(timer := r.state, store := r.store)
    case ResetTimer =>
      var r := Countdown.Reset(w.timer, w.store);
      w.(timer := r.state, store := r.store)
    case SetInputs(h, m, s) =>
      w.(timer := w.timer.(hours := h, minutes := m, seconds := s))
  }

  /** A stopwatch button or a firing of the stopwatch's interval, at clock reading `now`. */
  function WatchStep(w: Widget, e: Event): (r: Widget)
    requires !IsTimerEvent(e)
    ensures r.timer == w.timer && r.alerts == w.alerts
    ensures r.store - {StopwatchTimeKey} == w.store - {StopwatchTimeKey}
  {
    match e
    case StartStopwatch(now) =>
      w.(watch := Stopwatch.Start(w.watch, now))
    case StopwatchTick(now) =>
      var r := Stopwatch.Tick(w.watch, now, w.store);
      w.(watch := r.state, store := r.store)
    case PauseStopwatch =>
      var r := Stopwatch.Pause(w.watch, w.store);
      w.(watch := r.state, store := r.store)
    case ResetStopwatch =>
      var r := Stopwatch.Reset(w.watch, w.store);
      w.(watch := r.state, store := r.store)
  }

  function Run(w: Widget, events: seq<Event>): Widget
    decreases |events|
  {
    if |events| == 0 then w else Run(Step(w, events[0]), events[1..])
  }

  /**
    After a countdown expires, typing 0 h 0 min 10 s and pressing start runs
    the timer again for 10 seconds: the expiry text makes the start re-derive
    the duration from the freshly typed inputs.
   */
  lemma RestartAfterExpiry(t: Countdown.Timer, watch: Stopwatch.Watch, store: Store, alerts: seq<string>)
    requires t.running && Countdown.Valid(t)
    ensures var expired := Countdown.Ticks(t, store, t.totalTime as nat);
      var r := Run(Widget(expired.state, watch, expired.store, alerts), [SetInputs("0", "0", "10"), StartTimer]);
      r.timer.running && r.timer.totalTime == 10 && r.alerts == alerts
  {
    Countdown.CountsDownToExpiry(t, store, t.totalTime as nat);
    var expired := Countdown.Ticks(t, store, t.totalTime as nat);
    var w := Widget(expired.state, watch, expired.store, alerts);
    var typed := Step(w, SetInputs("0", "0", "10"));
    ZeroAndTenStrings();
    Countdown.InputDurationOfNumbers(typed.timer, 0, 0, 10);
    assert Run(w, [SetInputs("0", "0", "10"), StartTimer]) == Run(typed, [StartTimer]);
  }

  /**
    From startup on, whatever the events, a running timer has at least one
    second left, so a tick never takes it below 0.
   */
  lemma {:induction false} RunKeepsTimerValid(w: Widget, events: seq<Event>)
    requires Countdown.Valid(w.timer)
    ensures Countdown.Valid(Run(w, events).timer)
    decreases |events|
  {
    if |events| > 0 {
      RunKeepsTimerValid(Step(w, events[0]), events[1..]);
    }
  }

  /** The events of one component, in their original order. */
  function TimerEvents(events: seq<Event>): (r: seq<Event>)
    ensures forall i | 0 <= i < |r| :: IsTimerEvent(r[i])
    decreases |events|
  {
    if |events| == 0 then []
    else (if IsTimerEvent(events[0]) then [events[0]] else []) + TimerEvents(events[1..])
  }

  function StopwatchEvents(events: seq<Event>): (r: seq<Event>)
    ensures forall i | 0 <= i < |r| :: !IsTimerEvent(r[i])
    decreases |events|
  {
    if |events| == 0 then []
    else (if IsTimerEvent(events[0]) then [] else [events[0]]) + StopwatchEvents(events[1..])
  }

  /** Two stores agree on the record under `key`. */
  predicate SameRecord(a: Store, b: Store, key: string) {
    (key in a <==> key in b) && (key in a ==> a[key] == b[key])
  }

  /** Two widgets agree on everything the timer owns. */
  predicate SameTimer(a: Widget, b: Widget) {
    a.timer == b.timer && a.alerts == b.alerts && SameRecord(a.store, b.store, TotalTimeKey)
  }

  /** Two widgets agree on everything the stopwatch owns. */
  predicate SameWatch(a: Widget, b: Widget) {
    a.watch == b.watch && SameRecord(a.store, b.store, StopwatchTimeKey)
  }

  /** A store change confined to one key leaves every other record alone. */
  lemma OtherRecordKept(before: Store, after: Store, changed: string, key: string)
    requires after - {changed} == before - {changed}
    requires key != changed
    ensures SameRecord(before, after, key)
  {
    assert key in before <==> key in before - {changed};
    assert key in after <==> key in after - {changed};
    if key in before {
      assert before[key] == (before - {changed})[key];
      assert after[key] == (after - {changed})[key];
    }
  }

  lemma StepTimer(a: Widget, b: Widget, e: Event)
    requires SameTimer(a, b)
    ensures IsTimerEvent(e) ==> SameTimer(Step(a, e), Step(b, e))
    ensures !IsTimerEvent(e) ==> SameTimer(Step(a, e), b)
  {
    if !IsTimerEvent(e) {
      KeysDiffer();
      var r := Step(a, e);
      OtherRecordKept(a.store, r.store, StopwatchTimeKey, TotalTimeKey);
    } else if e.TimerTick? {
      var ra := Countdown.Tick(a.timer, a.store);
      var rb := Countdown.Tick(b.timer, b.store);
      if !a.timer.running {
        assert ra.store == a.store && rb.store == b.store;
      }
    }
  }

  lemma StepWatch(a: Widget, b: Widget, e: Event)
    requires SameWatch(a, b)
    ensures !IsTimerEvent(e) ==> SameWatch(Step(a, e), Step(b, e))
    ensures IsTimerEvent(e) ==> SameWatch(Step(a, e), b)
  {
    if IsTimerEvent(e) {
      KeysDiffer();
      var r := Step(a, e);
      OtherRecordKept(a.store, r.store, TotalTimeKey, StopwatchTimeKey);
    } else if e.StopwatchTick? {
      if !a.watch.running {
        assert Step(a, e).store == a.store && Step(b, e).store == b.store;
      }
    }
  }

  lemma {:induction false} TimerIgnoresOthers(a: Widget, b: Widget, events: seq<Event>)
    requires SameTimer(a, b)
    ensures SameTimer(Run(a, events), Run(b, TimerEvents(events)))
    decreases |events|
  {
    if |events| > 0 {
      var e, rest := events[0], events[1..];
      StepTimer(a, b, e);
      if IsTimerEvent(e) {
        assert TimerEvents(events) == [e] + TimerEvents(rest);
        assert ([e] + TimerEvents(rest))[1..] == TimerEvents(rest);
        TimerIgnoresOthers(Step(a, e), Step(b, e), rest);
      } else {
        assert TimerEvents(events) == TimerEvents(rest);
        TimerIgnoresOthers(Step(a, e), b, rest);
      }
    }
  }

  lemma {:induction false} WatchIgnoresOthers(a: Widget, b: Widget, events: seq<Event>)
    requires SameWatch(a, b)
    ensures SameWatch(Run(a, events), Run(b, StopwatchEvents(events)))
    decreases |events|
  {
    if |events| > 0 {
      var e, rest := events[0], events[1..];
      StepWatch(a, b, e);
      if !IsTimerEvent(e) {
        assert StopwatchEvents(events) == [e] + StopwatchEvents(rest);
        assert ([e] + StopwatchEvents(rest))[1..] == StopwatchEvents(rest);
        WatchIgnoresOthers(Step(a, e), Step(b, e), rest);
      } else {
        assert StopwatchEvents(events) == StopwatchEvents(rest);
        WatchIgnoresOthers(Step(a, e), b, rest);
      }
    }
  }

  /**
    The two components share nothing: however timer and stopwatch events
    interleave, the timer (its state, its alerts and its stored record) ends up
    as if only the timer events had happened, and likewise the stopwatch.
   */
  lemma ComponentsIndependent(w: Widget, events: seq<Event>)
    ensures SameTimer(Run(w, events), Run(w, TimerEvents(events)))
    ensures SameWatch(Run(w, events), Run(w, StopwatchEvents(events)))
  {
    TimerIgnoresOthers(w, w, events);
    WatchIgnoresOthers(w, w, events);
  }
}
